=== FILE: README.md ===
# Filter and toggle state engine of the Kiali list toolbar

A Dafny model of the state engine behind Kiali's filter toolbar
(`frontend/src/components/Filters/StatefulFilters.tsx`): the process-wide
store of active filters (`FilterSelected`) and how it is reconciled with the
URL, the store of column toggles (`Toggles`), and the controller's handlers
that add, update, remove and clear filters, switch category, and drive the
typeahead (candidate narrowing and keyboard focus with wrap-around).

Files and modules:

- `filter_types.dfy` (`FilterTypes`): filter values, filter types, active filters, the label operator, toggle types, and `First`, the lookup that `find` and `filter(...)[0]` perform.
- `url.dfy` (`Url`): the query string, the browser location (a class, since every view shares it) and `UrlCodec`, the URL helpers as function values. Their code is not part of this model, so nothing is assumed about them, not even a round trip.
- `filter_list.dfy` (`FilterList`): the pure list logic: the duplicate guard, removal, the overwrite loop and the append-or-update rule.
- `typeahead.dfy` (`Typeahead`): case-insensitive substring narrowing and focus movement.
- `filter_store.dfy` (`FilterStore`): class `FilterSelected`.
- `toggle_store.dfy` (`ToggleStore`): class `Toggles`.
- `controller.dfy` (`Controller`): class `StatefulFilters`, the per-toolbar state and its handlers.

The URL helpers (`FilterHelper.getFiltersFromURL`, `setFiltersToURL`,
`filtersMatchURL`, `HistoryManager.getBooleanParam`, `setParam`) are
parameters of type `UrlCodec`. The owning view's `onFilterChange` callback is
recorded as the list `filterChanges` of the infos it received.

Three behaviours of the code that differ from what a reader might expect, modelled as written:

- Clearing the filters fires the change callback on every call, also when the list was already empty (`clearFilters`, line 376-378).
- Setting a toggle does not change the returned count (line 146); see Findings.
- Selecting another filter type keeps the focused index, which can then lie past the end of the new candidate list and is not wrapped back by ArrowDown (lines 293-297, 346-349); see Findings.

## Model

| member | source | states |
|---|---|---|
| FilterList.IsActiveIn | frontend/src/components/Filters/StatefulFilters.tsx:365-367 | true exactly when some active entry has both the category and the value |
| FilterList.Removed | frontend/src/components/Filters/StatefulFilters.tsx:370 | the kept entries are exactly those of the list that differ from (category, value) in a field; never longer |
| FilterList.RemovedAppend | frontend/src/components/Filters/StatefulFilters.tsx:370 | removal distributes over concatenation, so the kept entries stay in their original order |
| FilterList.RemovedShorterIffActive | frontend/src/components/Filters/StatefulFilters.tsx:370-373 | the length test used by removeFilter holds exactly when the pair was active; if it was not, the list is returned unchanged |
| FilterList.RemovedIdempotent | frontend/src/components/Filters/StatefulFilters.tsx:369-374 | removing the same pair twice gives the same list as removing it once |
| FilterList.Overwritten | frontend/src/components/Filters/StatefulFilters.tsx:279-281 | same length; each entry of the category carries the new value, every other entry is unchanged |
| FilterList.OverwriteValues | frontend/src/components/Filters/StatefulFilters.tsx:279-281 | the in-place overwrite loop produces exactly the overwritten list |
| FilterList.Added | frontend/src/components/Filters/StatefulFilters.tsx:271-287 | Update type with entries of the category: same length, those entries take the value, categories and all other entries unchanged; otherwise the old list followed by exactly one new (category, value) |
| FilterList.GuardedAddKeepsNoDuplicates | frontend/src/components/Filters/StatefulFilters.tsx:301-322 | adding only when the pair is not active keeps the list free of duplicate pairs, given at most one entry per Update category, and that proviso holds again after the add |
| FilterList.AddedKeepsAtMostOnce | frontend/src/components/Filters/StatefulFilters.tsx:278-284 | adding to an Update category with at most one entry leaves it with at most one entry |
| FilterList.UpdateWithTwoEntriesDuplicates | frontend/src/components/Filters/StatefulFilters.tsx:279-281 | an Update type with two entries of its category makes them a duplicate pair, so the guard needs that condition |
| FilterList.UpdateVersusAppend | frontend/src/components/Filters/StatefulFilters.tsx:278-284 | two adds to an Update category leave one entry with the later value; two adds to an Append category leave two entries in order |
| Typeahead.LowerChar | frontend/src/components/Filters/StatefulFilters.tsx:251 | maps A to Z onto a to z and leaves every other character alone |
| Typeahead.Lower | frontend/src/components/Filters/StatefulFilters.tsx:251 | same length; each character lower-cased |
| Typeahead.LowerIdempotent | frontend/src/components/Filters/StatefulFilters.tsx:251 | lower-casing twice equals lower-casing once |
| Typeahead.LowerAppend | frontend/src/components/Filters/StatefulFilters.tsx:251 | lower-casing distributes over concatenation |
| Typeahead.IncludesEmpty | frontend/src/components/Filters/StatefulFilters.tsx:251 | every text contains the empty string |
| Typeahead.IncludesPrefix | frontend/src/components/Filters/StatefulFilters.tsx:251 | a text containing a string contains each of its prefixes |
| Typeahead.MatchesPrefix | frontend/src/components/Filters/StatefulFilters.tsx:250-252 | a title matching an input matches every prefix of that input |
| Typeahead.Narrow | frontend/src/components/Filters/StatefulFilters.tsx:250-252 | the shown candidates are exactly the values whose lower-cased title contains the lower-cased input |
| Typeahead.NarrowAppend | frontend/src/components/Filters/StatefulFilters.tsx:250-252 | narrowing distributes over concatenation, so candidates keep their order |
| Typeahead.NarrowEmptyInput | frontend/src/components/Filters/StatefulFilters.tsx:250-252 | an empty input shows all values |
| Typeahead.NarrowIgnoresCase | frontend/src/components/Filters/StatefulFilters.tsx:250-252 | letter case in the input makes no difference |
| Typeahead.NarrowExtendedInput | frontend/src/components/Filters/StatefulFilters.tsx:250-252 | typing more only removes candidates: the longer input's list is the shorter input's list narrowed again |
| Typeahead.NextFocus | frontend/src/components/Filters/StatefulFilters.tsx:336-351 | with n > 0 and a focus inside the list the new index lies in [0, n) and is the old one plus or minus 1 modulo n; from no focus ArrowDown gives 0 and ArrowUp n - 1 |
| Typeahead.FocusUpDownInverse | frontend/src/components/Filters/StatefulFilters.tsx:337-351 | ArrowUp undoes ArrowDown and ArrowDown undoes ArrowUp |
| Typeahead.FocusAfterDownCycles | frontend/src/components/Filters/StatefulFilters.tsx:344-350 | k presses of ArrowDown from index i focus (i + k) mod n |
| Typeahead.FocusAfterUpCycles | frontend/src/components/Filters/StatefulFilters.tsx:337-343 | k presses of ArrowUp from index i focus (i - k) mod n |
| Typeahead.StaleFocusRunsAway | frontend/src/components/Filters/StatefulFilters.tsx:344-350 | from a focus at or past the end of a non-empty list, k presses of ArrowDown focus exactly k places further on, never back inside the list |
| Typeahead.PressesFromNoFocus | frontend/src/components/Filters/StatefulFilters.tsx:339-348 | from no focus, k presses of ArrowDown focus k - 1 and k presses of ArrowUp focus n - k, modulo n |
| Typeahead.FocusedItem | frontend/src/components/Filters/StatefulFilters.tsx:356 | a candidate exactly when the focused index lies inside the list, and then the candidate at that index |
| FilterTypes.First | frontend/src/components/Filters/StatefulFilters.tsx:303 | None exactly when no element satisfies the test; otherwise the first element that does (the candidate lookup by id here, the category lookups at lines 214 and 291) |
| FilterStore.FilterSelected.constructor | frontend/src/components/Filters/StatefulFilters.tsx:88-89 | the store starts uninitialised, with no operator |
| FilterStore.FilterSelected.IsInitialized | frontend/src/components/Filters/StatefulFilters.tsx:116-118 | true exactly when a filter list is stored |
| FilterStore.FilterSelected.GetSelected | frontend/src/components/Filters/StatefulFilters.tsx:112-114 | the stored list, or the empty list when uninitialised; the stored operator, or `or` when none was set |
| FilterStore.FilterSelected.ResetFilters | frontend/src/components/Filters/StatefulFilters.tsx:103-105 | the store is uninitialised afterwards and reads as the empty list; the operator is kept |
| FilterStore.FilterSelected.SetSelected | frontend/src/components/Filters/StatefulFilters.tsx:107-110 | list and operator replaced together; reading back gives exactly the info set, and the store is initialised |
| FilterStore.FilterSelected.Init | frontend/src/components/Filters/StatefulFilters.tsx:91-101 | uninitialised: seeded from the URL, URL untouched; matching the URL: nothing changes; otherwise the store's content is written to the URL and the store takes the write's result; the result always equals the store's content afterwards |
| ToggleStore.Resolved | frontend/src/components/Filters/StatefulFilters.tsx:133-134 | the URL's boolean when it has one, the toggle's default otherwise |
| ToggleStore.ToggleMapKeys | frontend/src/components/Filters/StatefulFilters.tsx:127-139 | init maps exactly the names of the given toggles, and no name left from before |
| ToggleStore.ToggleMapValue | frontend/src/components/Filters/StatefulFilters.tsx:132-135 | with unique names each toggle maps to its resolved state |
| ToggleStore.CountTrueUpdate | frontend/src/components/Filters/StatefulFilters.tsx:145 | setting one entry changes the number of checked names by exactly that entry's change |
| ToggleStore.InitCountIsCheckedNames | frontend/src/components/Filters/StatefulFilters.tsx:126-140 | with unique names the count init returns is the number of names mapped to true |
| ToggleStore.FlipChangesCount | frontend/src/components/Filters/StatefulFilters.tsx:143-148 | flipping a toggle changes the number of checked names by one, so a count that stays put is wrong afterwards |
| ToggleStore.WasmScenarioCountStaysZero | frontend/src/components/Filters/StatefulFilters.tsx:126-148 | a store initialised with toggles `wasm` and `istio` unchecked and neither in the URL, then `setToggle('wasm', true)`: one name is checked while the returned and stored count stay 0, so the count no longer matches the map |
| ToggleStore.Toggles.constructor | frontend/src/components/Filters/StatefulFilters.tsx:123-124 | empty map, count 0 |
| ToggleStore.Toggles.Init | frontend/src/components/Filters/StatefulFilters.tsx:126-141 | prior state cleared; the map is built from the toggles in order, URL boolean over default; the returned count is the number of toggles resolved to checked and agrees with the map when names are unique |
| ToggleStore.Toggles.SetToggle | frontend/src/components/Filters/StatefulFilters.tsx:143-148 | the URL parameter `<name>Toggle` is set to the value, only that map entry changes, and the returned count equals the previous count, so a real flip leaves the count out of step with the map |
| ToggleStore.Toggles.SetToggleCounted | frontend/src/components/Filters/StatefulFilters.tsx:143-148 | same URL and map effect; the count moves by the entry's change and keeps agreeing with the map |
| ToggleStore.Toggles.GetToggles | frontend/src/components/Filters/StatefulFilters.tsx:150-152 | a map with the same names and states as the store's |
| Controller.StatefulFilters.constructor | frontend/src/components/Filters/StatefulFilters.tsx:166-177 | filters from the reconciled store in each of its three cases (read from the URL when the store is empty; kept, with the URL unchanged, when they match it; otherwise rewritten to the URL, taking the info the write returns), so a remount keeps the stored selection; toggle count from the toggle store, first supplied type selected (none if the list is empty), list closed, no typed text, no focus |
| Controller.StatefulFilters.GetCurrentFilterTypes | frontend/src/components/Filters/StatefulFilters.tsx:212-217 | the first supplied type of the current category when one exists, otherwise the first supplied type; none only when nothing was supplied |
| Controller.StatefulFilters.UpdateActiveFilters | frontend/src/components/Filters/StatefulFilters.tsx:264-269 | the info is written to the URL; store, state and the one callback all receive the info the write returned; typed text cleared; the rest of the view state unchanged |
| Controller.StatefulFilters.FilterAdded | frontend/src/components/Filters/StatefulFilters.tsx:271-287 | commits the old list with the value added by the append-or-update rule, keeping the operator |
| Controller.StatefulFilters.RemoveFilter | frontend/src/components/Filters/StatefulFilters.tsx:369-374 | if the pair was active, commits the list without it and with the same operator; otherwise nothing changes and no callback fires |
| Controller.StatefulFilters.ClearFilters | frontend/src/components/Filters/StatefulFilters.tsx:376-378 | commits the empty list with the default operator; the callback always fires |
| Controller.StatefulFilters.SelectFilterType | frontend/src/components/Filters/StatefulFilters.tsx:289-299 | when the chosen category's first type differs from the current one it becomes current and the typed text is cleared; active filters untouched |
| Controller.StatefulFilters.StaleFocusAfterSelect | frontend/src/components/Filters/StatefulFilters.tsx:289-299 | with the list open and a focus k past the end of the newly selected, shorter type, selecting it and pressing ArrowDown twice leaves the focus at k + 2, outside the list |
| Controller.StatefulFilters.SelectFilterTypeResettingFocus | frontend/src/components/Filters/StatefulFilters.tsx:289-299 | the corrected selection: as the source, and a change of type also drops the focus, so a focus inside the current list stays inside it |
| Controller.StatefulFilters.FreshFocusAfterSelect | frontend/src/components/Filters/StatefulFilters.tsx:289-299 | the same switch through the corrected selection: two ArrowDown presses focus 1 mod the new list's length, inside the list |
| Controller.StatefulFilters.FilterValueSelected | frontend/src/components/Filters/StatefulFilters.tsx:301-310 | the first candidate with the id is added unless its title is already active under the category, in which case nothing is committed; the list closes |
| Controller.StatefulFilters.UpdateCurrentValue | frontend/src/components/Filters/StatefulFilters.tsx:312-314 | typed text stored, focus dropped |
| Controller.StatefulFilters.OnValueKeyDown | frontend/src/components/Filters/StatefulFilters.tsx:316-328 | Enter adds the typed text unless it is empty or active (then nothing is committed), clears it, stops propagation and suppresses the default action; other keys change nothing |
| Controller.StatefulFilters.OnTypeaheadInputKeyDown | frontend/src/components/Filters/StatefulFilters.tsx:330-363 | arrows move the focus by NextFocus while open and change nothing while closed; Enter on an open list with a focused candidate selects it by id, then clears the text and focus and closes; otherwise nothing changes; a focus inside a non-empty current list stays inside it |
| Controller.StatefulFilters.SyncUrl | frontend/src/components/Filters/StatefulFilters.tsx:240-241 | when the URL no longer encodes the state's filters they are written to it again, otherwise the URL is unchanged; the returned info is discarded |
| Controller.StatefulFilters.NarrowCandidates | frontend/src/components/Filters/StatefulFilters.tsx:244-257 | for a typeahead whose text changed, the current type becomes the supplied type with its values narrowed to the text, and the list opens; stored types and filters untouched |

## Findings

| source | as written | input that shows it | evidently intended | confidence | as-written member | corrected member |
|---|---|---|---|---|---|---|
| frontend/src/components/Filters/StatefulFilters.tsx:146 | `numChecked = value ? numChecked++ : numChecked--` stores the value the postfix operator yields, the count before the step, so the count never changes | toggles `wasm` and `istio` both unchecked (count 0), then `setToggle('wasm', true)`: the map has one checked name, the returned count is 0 | the count moves by one with the flip and equals the number of checked names | high (not executed) | `ToggleStore.Toggles.SetToggle`, `ToggleStore.FlipChangesCount`, `ToggleStore.WasmScenarioCountStaysZero` | `ToggleStore.Toggles.SetToggleCounted`, `ToggleStore.CountTrueUpdate` |
| frontend/src/components/Filters/StatefulFilters.tsx:293-297 | a change of filter type keeps `focusedItemIndex`; the arrow handler at lines 346-349 wraps only from exactly the last index, so a focus left past the end of the new, shorter list is never brought back | open typeahead list of type `a` with 5 candidates focused at 4, select type `b` with 2 candidates, press ArrowDown twice: the focus is 5, then 6 | the focus always lies inside the current candidate list | medium (not executed) | `Controller.StatefulFilters.StaleFocusAfterSelect`, `Typeahead.StaleFocusRunsAway` | `Controller.StatefulFilters.SelectFilterTypeResettingFocus`, `Controller.StatefulFilters.FreshFocusAfterSelect` |

## Left out

- `DefaultLabelOperation`: the value `or` is assumed from the documented default, because the source imports the constant from its filter type definitions, which are not part of this model.
- Rendering: `render`, `renderInput`, `renderChildren`, `getMenuToggle` and the style constants are presentation only.
- The operator selector's inline handler in `render` (lines 588-593) is left with the rest of `render`; it is one call of `UpdateActiveFilters` with the current list and the new operator.
- `onToggle` and `onCheckboxChange` (the checkbox handler that calls `setToggle` and `getToggles`) are not modelled; the toggle store itself is.
- `loadDynamicFilters`, the promise registry and `componentWillUnmount`: asynchronous loading and cancellation are not modelled.
- The props-change branch of `componentDidUpdate` (re-reading changed filter types and reloading dynamic values) depends on `arrayEquals`, whose code is not part of this model; the supplied filter types are fixed for the life of a controller, so only its other branch, the URL drift rewrite, is modelled (`SyncUrl`).
- The URL helpers and `HistoryManager` are parameters; their encoding and any round-trip law are not modelled.
- `FilterValueSelected` closes the list at once, and its `!isOpen` holds for the handler taken alone. The source defers the close to the next tick (line 309). Before that callback runs, clearing the typed text (lines 267 and 360) triggers the update step at lines 245-256, which reopens the list. The close then runs last, so the source ends closed. Running the model's steps in that order (`FilterValueSelected`, then `NarrowCandidates`) ends with the list open instead; the model does not order a deferred callback after the update it schedules.
- React's batched `setState` is modelled as immediate assignment; none of the modelled handlers reads state it has just set.
- `SelectFilterType` compares filter types by value where the source compares object identity; they differ when the current type is a narrowed typeahead copy whose values all matched, and after dynamic loading has replaced the state's filter types with fresh objects of equal content (lines 188-195 and 204, not modelled); in both cases the source also clears the typed text.
- `GetCurrentFilterTypes` falls back to the first supplied type when there is no current type; the source reads the category of an undefined current type there and throws, which the model does not reproduce.
- Aliasing: the list the controller pushes into is the same array the filter store holds; the model works on values, and the store ends up holding what the URL write returned either way.
- Letter case: `toLowerCase` is modelled for A to Z only; other Unicode case mappings are not.
- Toggle map order: the map is a Dafny `map`, so the insertion order a JavaScript `Map` keeps is not modelled.
- The handlers of the value inputs require a current filter type, because the source only renders those inputs when one exists; `NarrowCandidates` reports the source's failure on a missing type with `ok == false` instead of throwing.

=== FILE: controller.dfy ===
/**
 * The filter toolbar's controller: the state of one mounted toolbar and the
 * event handlers that add, remove and clear filters, switch category, and
 * drive the typeahead. Every committed change goes through the URL writer,
 * the active-filter store and the owning view's change callback.
 */
module Controller {
  import opened FilterTypes
  import opened Url
  import opened FilterList
  import opened Typeahead
  import opened FilterStore
  import opened ToggleStore

  class StatefulFilters {
    /** The filter types the owning view supplies. */
    const initialFilters: seq<FilterType>
    /** The shared stores and the browser location. */
    const store: FilterSelected
    const toggleStore: Toggles
    const loc: Location

    var activeFilters: ActiveFiltersInfo
    var activeToggles: int
    /** The selected category; None when the supplied list was empty or a category was not found. */
    var currentFilterType: Option<FilterType>
    var currentValue: string
    var filterTypes: seq<FilterType>
    var focusedItemIndex: Option<int>
    var isOpen: bool
    /** The infos passed to the owning view's onFilterChange, oldest first. */
    var filterChanges: seq<ActiveFiltersInfo>

    /** Mounting: the filter store is reconciled with the URL, then the toggles are read from it. */
    constructor (initialFilters: seq<FilterType>, initialToggles: Option<seq<ToggleType>>,
                 store: FilterSelected, toggleStore: Toggles, loc: Location, codec: UrlCodec)
      modifies store, toggleStore, loc
      ensures this.initialFilters == initialFilters && this.filterTypes == initialFilters
      ensures this.store == store && this.toggleStore == toggleStore && this.loc == loc
      ensures store.IsInitialized() && activeFilters == store.GetSelected()
      ensures !old(store.IsInitialized()) ==>
        activeFilters == codec.getFiltersFromUrl(initialFilters, old(loc.query)) && loc.query == old(loc.query)
      ensures old(store.IsInitialized()) && codec.filtersMatchUrl(initialFilters, old(store.GetSelected()), old(loc.query)) ==>
        activeFilters == old(store.GetSelected()) && loc.query == old(loc.query)
      ensures old(store.IsInitialized()) && !codec.filtersMatchUrl(initialFilters, old(store.GetSelected()), old(loc.query)) ==>
        var w := codec.setFiltersToUrl(initialFilters, old(store.GetSelected()), old(loc.query));
        activeFilters == w.info && loc.query == w.query
      ensures var toggles := if initialToggles.Some? then initialToggles.value else [];
        toggleStore.checked == ToggleMap(toggles, loc.query, codec) &&
        activeToggles == toggleStore.numChecked == CountOn(toggles, loc.query, codec)
      ensures currentFilterType == if |initialFilters| > 0 then Some(initialFilters[0]) else None
      ensures currentValue == "" && !isOpen && focusedItemIndex == None && filterChanges == []
    {
      var active := store.Init(initialFilters, loc, codec);
      var count := toggleStore.Init(if initialToggles.Some? then initialToggles.value else [], loc, codec);
      this.initialFilters := initialFilters;
      this.store := store;
      this.toggleStore := toggleStore;
      this.loc := loc;
      activeFilters := active;
      activeToggles := count;
      currentFilterType := if |initialFilters| > 0 then Some(initialFilters[0]) else None;
      filterTypes := initialFilters;
      isOpen := false;
      currentValue := "";
      focusedItemIndex := None;
      filterChanges := [];
    }

    /**
     * What committing `info` does: the URL is rewritten, the store and the
     * state take the info the write returned, the typed text is cleared and
     * the owning view is notified once.
     */
    twostate predicate Committed(codec: UrlCodec, info: ActiveFiltersInfo)
      reads this, store, loc
    {
      var w := codec.setFiltersToUrl(old(filterTypes), info, old(loc.query));
      && loc.query == w.query
      && store.selectedFilters == Some(w.info.filters) && store.opSelected == Some(w.info.op)
      && activeFilters == w.info
      && currentValue == ""
      && filterChanges == old(filterChanges) + [w.info]
    }

    /** The active filters, the store, the URL and the notifications are as before. */
    twostate predicate FiltersUntouched()
      reads this, store, loc
    {
      activeFilters == old(activeFilters) && filterChanges == old(filterChanges) && unchanged(store) && unchanged(loc)
    }

    /** The category selection, the typeahead state and the toggle count are as before. */
    twostate predicate ViewUntouched()
      reads this
    {
      currentFilterType == old(currentFilterType) && filterTypes == old(filterTypes) &&
      focusedItemIndex == old(focusedItemIndex) && isOpen == old(isOpen) && activeToggles == old(activeToggles)
    }

    /** The supplied type of the current category, or the first supplied type when the category is gone. */
    function GetCurrentFilterTypes(): (r: Option<FilterType>)
      reads this
      ensures r.None? <==> initialFilters == []
      ensures r.Some? ==> r.value in initialFilters
      ensures currentFilterType.Some? && FindCategory(initialFilters, currentFilterType.value.category).Some? ==>
        r == FindCategory(initialFilters, currentFilterType.value.category) &&
        r.value.category == currentFilterType.value.category
      ensures (currentFilterType.None? || FindCategory(initialFilters, currentFilterType.value.category).None?) &&
              initialFilters != [] ==>
        r == Some(initialFilters[0])
    {
      var found := if currentFilterType.Some? then FindCategory(initialFilters, currentFilterType.value.category) else None;
      if found.Some? then found
      else if initialFilters != [] then Some(initialFilters[0])
      else None
    }

    /** Commits `info`: written to the URL, stored, shown, and passed to the owning view. */
    method UpdateActiveFilters(codec: UrlCodec, info: ActiveFiltersInfo)
      modifies this, store, loc
      ensures Committed(codec, info) && ViewUntouched()
    {
      var clean := codec.setFiltersToUrl(filterTypes, info, loc.query);
      loc.query := clean.query;
      store.SetSelected(clean.info);
      activeFilters := clean.info;
      currentValue := "";
      filterChanges := filterChanges + [clean.info];
    }

    /**
     * Adds `value` under `field`'s category: for an Update type whose
     * category is already active the existing entries are overwritten in
     * place, otherwise one entry is appended; then the result is committed.
     */
    method FilterAdded(codec: UrlCodec, field: FilterType, value: string)
      modifies this, store, loc
      ensures Committed(codec, ActiveFiltersInfo(Added(old(activeFilters.filters), field, value), old(activeFilters.op)))
      ensures ViewUntouched()
    {
      var filters := activeFilters.filters;
      if field.action == Update && HasCategory(filters, field.category) {
        filters := OverwriteValues(filters, field.category, value);
      } else {
        filters := filters + [ActiveFilter(field.category, value)];
      }
      UpdateActiveFilters(codec, ActiveFiltersInfo(filters, activeFilters.op));
    }

    /**
     * Removes every entry equal to (category, value), keeping the operator.
     * When no entry matched, nothing changes and no callback fires.
     */
    method RemoveFilter(codec: UrlCodec, category: string, value: string)
      modifies this, store, loc
      ensures IsActiveIn(old(activeFilters.filters), category, value) ==>
        Committed(codec, ActiveFiltersInfo(Removed(old(activeFilters.filters), category, value), old(activeFilters.op))) &&
        ViewUntouched()
      ensures !IsActiveIn(old(activeFilters.filters), category, value) ==>
        unchanged(this) && unchanged(store) && unchanged(loc)
    {
      var updated := Removed(activeFilters.filters, category, value);
      RemovedShorterIffActive(activeFilters.filters, category, value);
      if |updated| != |activeFilters.filters| {
        UpdateActiveFilters(codec, ActiveFiltersInfo(updated, activeFilters.op));
      }
    }

    /** Commits the empty list with the default operator; the callback always fires. */
    method ClearFilters(codec: UrlCodec)
      modifies this, store, loc
      ensures Committed(codec, ActiveFiltersInfo([], DefaultLabelOperation)) && ViewUntouched()
    {
      UpdateActiveFilters(codec, ActiveFiltersInfo([], DefaultLabelOperation));
    }

    /** Switches to the first type of the chosen category, clearing the typed text, when that differs from the current type. */
    method SelectFilterType(value: string)
      modifies this
      ensures var found := FindCategory(old(filterTypes), value);
        if old(currentFilterType) != found then currentFilterType == found && currentValue == ""
        else currentFilterType == old(currentFilterType) && currentValue == old(currentValue)
      ensures activeFilters == old(activeFilters) && filterChanges == old(filterChanges)
      ensures filterTypes == old(filterTypes) && focusedItemIndex == old(focusedItemIndex)
      ensures isOpen == old(isOpen) && activeToggles == old(activeToggles)
    {
      var filterType := FindCategory(filterTypes, value);
      if currentFilterType != filterType {
        currentValue := "";
        currentFilterType := filterType;
      }
    }

    /** The focused index, when there is one, points into the current type's candidates. */
    predicate FocusInRange()
      reads this
    {
      focusedItemIndex.Some? ==>
        currentFilterType.Some? && 0 <= focusedItemIndex.value < |currentFilterType.value.filterValues|
    }

    /**
     * Switching from a long typeahead list to a shorter one with a focus
     * past the new end: the focus is kept, and ArrowDown then moves it
     * further out instead of wrapping.
     */
    method StaleFocusAfterSelect(codec: UrlCodec, b: FilterType, k: int)
      requires FindCategory(filterTypes, b.category) == Some(b) && currentFilterType.Some? && currentFilterType != Some(b)
      requires isOpen && FocusInRange() && focusedItemIndex == Some(k) && 0 < |b.filterValues| <= k
      modifies this, store, loc
      ensures currentFilterType == Some(b) && isOpen
      ensures focusedItemIndex == Some(k + 2) && !FocusInRange()
    {
      SelectFilterType(b.category);
      OnTypeaheadInputKeyDown(codec, ArrowDown);
      OnTypeaheadInputKeyDown(codec, ArrowDown);
    }

    /**
     * The corrected selection: as `SelectFilterType`, and a change of type
     * also drops the focus, so the focus always points into the current list.
     */
    method SelectFilterTypeResettingFocus(value: string)
      modifies this
      ensures var found := FindCategory(old(filterTypes), value);
        if old(currentFilterType) != found then currentFilterType == found && currentValue == "" && focusedItemIndex == None
        else currentFilterType == old(currentFilterType) && currentValue == old(currentValue) && focusedItemIndex == old(focusedItemIndex)
      ensures activeFilters == old(activeFilters) && filterChanges == old(filterChanges)
      ensures filterTypes == old(filterTypes) && isOpen == old(isOpen) && activeToggles == old(activeToggles)
      ensures old(FocusInRange()) ==> FocusInRange()
    {
      var filterType := FindCategory(filterTypes, value);
      if currentFilterType != filterType {
        currentValue := "";
        currentFilterType := filterType;
        focusedItemIndex := None;
      }
    }

    /**
     * The same switch through the corrected selection: the two ArrowDown
     * presses start from no focus and stay inside the new list.
     */
    method FreshFocusAfterSelect(codec: UrlCodec, b: FilterType, k: int)
      requires FindCategory(filterTypes, b.category) == Some(b) && currentFilterType.Some? && currentFilterType != Some(b)
      requires isOpen && FocusInRange() && focusedItemIndex == Some(k) && 0 < |b.filterValues| <= k
      modifies this, store, loc
      ensures currentFilterType == Some(b) && isOpen
      ensures focusedItemIndex == Some(1 % |b.filterValues|) && FocusInRange()
    {
      SelectFilterTypeResettingFocus(b.category);
      OnTypeaheadInputKeyDown(codec, ArrowDown);
      OnTypeaheadInputKeyDown(codec, ArrowDown);
    }

    /**
     * A candidate was chosen by id: the first candidate with that id is added
     * unless its title is already active under the category; the list closes.
     */
    method FilterValueSelected(codec: UrlCodec, valueId: ValueId)
      requires currentFilterType.Some?
      modifies this, store, loc
      ensures var ct := old(currentFilterType).value;
        var fv := FindById(ct.filterValues, valueId);
        if fv.Some? && !IsActiveIn(old(activeFilters.filters), ct.category, fv.value.title) then
          Committed(codec, ActiveFiltersInfo(Added(old(activeFilters.filters), ct, fv.value.title), old(activeFilters.op)))
        else
          FiltersUntouched() && currentValue == old(currentValue)
      ensures !isOpen
      ensures currentFilterType == old(currentFilterType) && filterTypes == old(filterTypes)
      ensures focusedItemIndex == old(focusedItemIndex) && activeToggles == old(activeToggles)
    {
      var ct := currentFilterType.value;
      var filterValue := FindById(ct.filterValues, valueId);
      if filterValue.Some? && !IsActiveIn(activeFilters.filters, ct.category, filterValue.value.title) {
        FilterAdded(codec, ct, filterValue.value.title);
      }
      // The source closes the list on the next tick; no other handler runs in between here.
      isOpen := false;
    }

    /** The typed text changed: it is stored and the keyboard focus is dropped. */
    method UpdateCurrentValue(value: string)
      modifies this
      ensures currentValue == value && focusedItemIndex == None
      ensures activeFilters == old(activeFilters) && filterChanges == old(filterChanges)
      ensures currentFilterType == old(currentFilterType) && filterTypes == old(filterTypes)
      ensures isOpen == old(isOpen) && activeToggles == old(activeToggles)
    {
      currentValue := value;
      focusedItemIndex := None;
    }

    /**
     * A key in a plain text input. Enter adds the typed text unless it is
     * empty or already active, clears the text, stops the event's
     * propagation (`stopped`) and suppresses the default form submission
     * (`prevented`); other keys do nothing.
     */
    method OnValueKeyDown(codec: UrlCodec, key: Key) returns (stopped: bool, prevented: bool)
      requires currentFilterType.Some?
      modifies this, store, loc
      ensures stopped <==> key == Enter
      ensures prevented <==> key == Enter
      ensures key != Enter ==> unchanged(this) && unchanged(store) && unchanged(loc)
      ensures key == Enter ==> currentValue == "" && ViewUntouched()
      ensures key == Enter ==>
        var ct := old(currentFilterType).value;
        if |old(currentValue)| > 0 && !IsActiveIn(old(activeFilters.filters), ct.category, old(currentValue)) then
          Committed(codec, ActiveFiltersInfo(Added(old(activeFilters.filters), ct, old(currentValue)), old(activeFilters.op)))
        else
          FiltersUntouched()
    {
      stopped, prevented := false, false;
      if key == Enter {
        var ct := currentFilterType.value;
        if |currentValue| > 0 && !IsActiveIn(activeFilters.filters, ct.category, currentValue) {
          FilterAdded(codec, ct, currentValue);
        }
        currentValue := "";
        stopped := true;
        prevented := true;
      }
    }

    /**
     * A key in the typeahead input. While the list is open, ArrowUp and
     * ArrowDown move the focus with wrap-around; Enter on a focused
     * candidate selects it as a mouse click would, then clears the text
     * and the focus. Everything else leaves the state alone.
     */
    method OnTypeaheadInputKeyDown(codec: UrlCodec, key: Key)
      requires currentFilterType.Some?
      modifies this, store, loc
      ensures key == ArrowUp || key == ArrowDown ==>
        FiltersUntouched() && currentValue == old(currentValue) && currentFilterType == old(currentFilterType) &&
        filterTypes == old(filterTypes) && isOpen == old(isOpen) && activeToggles == old(activeToggles) &&
        focusedItemIndex == if old(isOpen)
          then Some(NextFocus(key, old(focusedItemIndex), |old(currentFilterType).value.filterValues|))
          else old(focusedItemIndex)
      ensures key == Enter ==>
        var ct := old(currentFilterType).value;
        var item := FocusedItem(ct.filterValues, old(focusedItemIndex));
        if old(isOpen) && item.Some? then
          var fv := FindById(ct.filterValues, item.value.id);
          (if fv.Some? && !IsActiveIn(old(activeFilters.filters), ct.category, fv.value.title) then
             Committed(codec, ActiveFiltersInfo(Added(old(activeFilters.filters), ct, fv.value.title), old(activeFilters.op)))
           else
             FiltersUntouched()) &&
          currentValue == "" && focusedItemIndex == None && !isOpen &&
          currentFilterType == old(currentFilterType) && filterTypes == old(filterTypes) && activeToggles == old(activeToggles)
        else
          unchanged(this) && unchanged(store) && unchanged(loc)
      ensures !(key == ArrowUp || key == ArrowDown || key == Enter) ==> unchanged(this) && unchanged(store) && unchanged(loc)
      ensures old(FocusInRange()) && |old(currentFilterType).value.filterValues| > 0 ==> FocusInRange()
    {
      var ct := currentFilterType.value;
      if key == ArrowUp || key == ArrowDown {
        if isOpen {
          focusedItemIndex := Some(NextFocus(key, focusedItemIndex, |ct.filterValues|));
        }
      } else if key == Enter {
        var focusedItem := FocusedItem(ct.filterValues, focusedItemIndex);
        if isOpen && focusedItem.Some? {
          FilterValueSelected(codec, focusedItem.value.id);
          currentValue := "";
          focusedItemIndex := None;
        }
      }
    }

    /**
     * The drift check after an update, with the supplied filter types
     * unchanged: when the URL no longer encodes the state's filters, they
     * are written to it again; the info the write returns is discarded, and
     * no state, store or callback changes.
     */
    method SyncUrl(codec: UrlCodec)
      modifies loc
      ensures codec.filtersMatchUrl(filterTypes, activeFilters, old(loc.query)) ==> loc.query == old(loc.query)
      ensures !codec.filtersMatchUrl(filterTypes, activeFilters, old(loc.query)) ==>
        loc.query == codec.setFiltersToUrl(filterTypes, activeFilters, old(loc.query)).query
    {
      if !codec.filtersMatchUrl(filterTypes, activeFilters, loc.query) {
        var written := codec.setFiltersToUrl(filterTypes, activeFilters, loc.query);
        loc.query := written.query;
      }
    }

    /**
     * The typeahead step after an update: when the current category is a
     * typeahead and the typed text changed from `prevValue`, the current type
     * becomes a copy of the supplied type whose values are narrowed to the
     * typed text, and the list opens. `ok` is false where the source fails
     * on a missing filter type, and then nothing changes.
     */
    method NarrowCandidates(prevValue: string) returns (ok: bool)
      modifies this
      ensures old(currentFilterType).None? ==> !ok && unchanged(this)
      ensures old(currentFilterType).Some? &&
              !(old(currentFilterType).value.filterKind == TypeAhead && old(currentValue) != prevValue) ==>
        ok && unchanged(this)
      ensures old(currentFilterType).Some? && old(currentFilterType).value.filterKind == TypeAhead &&
              old(currentValue) != prevValue ==>
        var base := old(GetCurrentFilterTypes());
        (base.None? ==> !ok && unchanged(this)) &&
        (base.Some? ==>
          ok && isOpen &&
          currentFilterType == Some(base.value.(filterValues := Narrow(base.value.filterValues, old(currentValue)))) &&
          currentValue == old(currentValue) && focusedItemIndex == old(focusedItemIndex) &&
          filterTypes == old(filterTypes) && activeFilters == old(activeFilters) &&
          filterChanges == old(filterChanges) && activeToggles == old(activeToggles))
    {
      if currentFilterType.None? {
        return false;
      }
      ok := true;
      if currentFilterType.value.filterKind == TypeAhead && currentValue != prevValue {
        var base := GetCurrentFilterTypes();
        if base.None? {
          return false;
        }
        var current := base.value.(filterValues := Narrow(base.value.filterValues, currentValue));
        currentFilterType := Some(current);
        isOpen := true;
      }
    }
  }
}

=== FILE: filter_list.dfy ===
/**
 * The list computations the filter controller performs on the active
 * filters: the duplicate guard, removal, and the append-or-update rule of
 * adding a value.
 */
module FilterList {
  import opened FilterTypes

  /** The duplicate guard: does some active entry carry exactly this category and value? */
  function IsActiveIn(filters: seq<ActiveFilter>, category: string, value: string): (r: bool)
    ensures r <==> exists i :: 0 <= i < |filters| && filters[i] == ActiveFilter(category, value)
  {
    if filters == [] then false
    else if filters[0] == ActiveFilter(category, value) then true
    else
      var r := IsActiveIn(filters[1..], category, value);
      assert forall i :: 1 <= i < |filters| ==> filters[i] == filters[1..][i - 1];
      r
  }

  /** No (category, value) pair occurs twice. */
  predicate NoDuplicates(filters: seq<ActiveFilter>)
  {
    forall i, j :: 0 <= i < j < |filters| ==> filters[i] != filters[j]
  }

  /** The entries kept by removing (category, value): those that differ in either field, in their order. */
  function Removed(filters: seq<ActiveFilter>, category: string, value: string): (r: seq<ActiveFilter>)
    ensures |r| <= |filters|
    ensures forall f :: f in r <==> f in filters && f != ActiveFilter(category, value)
  {
    if filters == [] then []
    else if filters[0] == ActiveFilter(category, value) then Removed(filters[1..], category, value)
    else [filters[0]] + Removed(filters[1..], category, value)
  }

  /** Removal distributes over concatenation, so the kept entries stay in their original order. */
  lemma {:induction false} RemovedAppend(a: seq<ActiveFilter>, b: seq<ActiveFilter>, category: string, value: string)
    ensures Removed(a + b, category, value) == Removed(a, category, value) + Removed(b, category, value)
  {
    if a == [] {
      assert a + b == b;
    } else {
      assert (a + b)[0] == a[0];
      assert (a + b)[1..] == a[1..] + b;
      RemovedAppend(a[1..], b, category, value);
    }
  }

  /**
   * The length test the controller uses decides exactly whether the pair was
   * active; when it was not, the list comes back unchanged.
   */
  lemma {:induction false} RemovedShorterIffActive(filters: seq<ActiveFilter>, category: string, value: string)
    ensures |Removed(filters, category, value)| < |filters| <==> IsActiveIn(filters, category, value)
    ensures !IsActiveIn(filters, category, value) ==> Removed(filters, category, value) == filters
  {
    if filters != [] {
      RemovedShorterIffActive(filters[1..], category, value);
      if filters[0] != ActiveFilter(category, value) {
        assert IsActiveIn(filters, category, value) == IsActiveIn(filters[1..], category, value) by {
          if IsActiveIn(filters, category, value) {
            var i :| 0 <= i < |filters| && filters[i] == ActiveFilter(category, value);
            assert filters[1..][i - 1] == filters[i];
          }
        }
        assert [filters[0]] + filters[1..] == filters;
      }
    }
  }

  /** Removing a pair twice is the same as removing it once. */
  lemma {:induction false} RemovedIdempotent(filters: seq<ActiveFilter>, category: string, value: string)
    ensures Removed(Removed(filters, category, value), category, value) == Removed(filters, category, value)
  {
    var r := Removed(filters, category, value);
    assert ActiveFilter(category, value) !in r;
    RemovedShorterIffActive(r, category, value);
  }

  /** Does some active entry belong to the category? */
  predicate HasCategory(filters: seq<ActiveFilter>, category: string)
  {
    exists i :: 0 <= i < |filters| && filters[i].category == category
  }

  /** Every entry of the category carries `value`; every other entry is as before. */
  function Overwritten(filters: seq<ActiveFilter>, category: string, value: string): (r: seq<ActiveFilter>)
    ensures |r| == |filters|
    ensures forall i :: 0 <= i < |filters| ==>
      r[i] == if filters[i].category == category then ActiveFilter(category, value) else filters[i]
  {
    if filters == [] then []
    else
      var head := if filters[0].category == category then ActiveFilter(category, value) else filters[0];
      [head] + Overwritten(filters[1..], category, value)
  }

  /** The overwrite loop of filterAdded: each entry of the category gets the new value, in place. */
  method OverwriteValues(filters: seq<ActiveFilter>, category: string, value: string) returns (r: seq<ActiveFilter>)
    ensures r == Overwritten(filters, category, value)
  {
    r := filters;
    var i := 0;
    while i < |r|
      invariant 0 <= i <= |r| == |filters|
      invariant forall k :: 0 <= k < i ==>
        r[k] == if filters[k].category == category then ActiveFilter(category, value) else filters[k]
      invariant forall k :: i <= k < |r| ==> r[k] == filters[k]
    {
      if r[i].category == category {
        r := r[i := r[i].(value := value)];
      }
      i := i + 1;
    }
  }

  /**
   * The list filterAdded hands on: for an Update category that already has
   * entries, those entries take the new value and nothing else moves;
   * otherwise exactly one entry is appended after the unchanged list.
   */
  function Added(filters: seq<ActiveFilter>, field: FilterType, value: string): (r: seq<ActiveFilter>)
    ensures field.action == Update && HasCategory(filters, field.category) ==>
      |r| == |filters| &&
      (forall i :: 0 <= i < |filters| && filters[i].category == field.category ==> r[i].value == value) &&
      (forall i :: 0 <= i < |filters| ==> r[i].category == filters[i].category) &&
      (forall i :: 0 <= i < |filters| && filters[i].category != field.category ==> r[i] == filters[i])
    ensures !(field.action == Update && HasCategory(filters, field.category)) ==>
      |r| == |filters| + 1 && r[..|filters|] == filters && r[|filters|] == ActiveFilter(field.category, value)
  {
    if field.action == Update && HasCategory(filters, field.category) then
      Overwritten(filters, field.category, value)
    else
      filters + [ActiveFilter(field.category, value)]
  }

  /** At most one entry of the category. */
  predicate AtMostOnce(filters: seq<ActiveFilter>, category: string)
  {
    forall i, j :: 0 <= i < j < |filters| && filters[i].category == category ==> filters[j].category != category
  }

  /** Adding to an Update category that has at most one entry leaves it with at most one entry. */
  lemma AddedKeepsAtMostOnce(filters: seq<ActiveFilter>, field: FilterType, value: string)
    requires field.action == Update && AtMostOnce(filters, field.category)
    ensures AtMostOnce(Added(filters, field, value), field.category)
  {
  }

  /**
   * Adding only when the pair is not active keeps the list free of
   * duplicate pairs, provided an Update category has at most one entry;
   * that proviso holds again afterwards, so the two chain over any run of
   * guarded adds.
   */
  lemma GuardedAddKeepsNoDuplicates(filters: seq<ActiveFilter>, field: FilterType, value: string)
    requires NoDuplicates(filters)
    requires !IsActiveIn(filters, field.category, value)
    requires field.action == Update ==> AtMostOnce(filters, field.category)
    ensures NoDuplicates(Added(filters, field, value))
    ensures field.action == Update ==> AtMostOnce(Added(filters, field, value), field.category)
  {
    if field.action == Update {
      AddedKeepsAtMostOnce(filters, field, value);
    }
  }

  /** Update with two entries of the category produces a duplicate pair: the guard alone does not prevent it. */
  lemma UpdateWithTwoEntriesDuplicates(field: FilterType, a: string, b: string, value: string)
    requires field.action == Update
    ensures !NoDuplicates(Added([ActiveFilter(field.category, a), ActiveFilter(field.category, b)], field, value))
  {
    var filters := [ActiveFilter(field.category, a), ActiveFilter(field.category, b)];
    assert filters[0].category == field.category;
    var r := Added(filters, field, value);
    assert r[0] == ActiveFilter(field.category, value) == r[1];
  }

  /** Two adds to an Update category leave one entry with the later value; two adds to an Append category leave two. */
  lemma UpdateVersusAppend(sort: FilterType, labels: FilterType)
    requires sort.action == Update && labels.action == Append
    ensures Added(Added([], sort, "name"), sort, "version") == [ActiveFilter(sort.category, "version")]
    ensures Added(Added([], labels, "env=prod"), labels, "tier=web") ==
      [ActiveFilter(labels.category, "env=prod"), ActiveFilter(labels.category, "tier=web")]
  {
  }

  /** The first filter type of the category. */
  function FindCategory(types: seq<FilterType>, category: string): Option<FilterType>
  {
    First(types, (t: FilterType) => t.category == category)
  }
}

=== FILE: filter_store.dfy ===
/**
 * The process-wide store of active filters. It distinguishes "never
 * initialised" from "initialised and empty", and on init reconciles itself
 * with the filters the URL encodes.
 */
module FilterStore {
  import opened FilterTypes
  import opened Url

  class FilterSelected {
    /** The active filters; None until the store is first set, and again after a reset. */
    var selectedFilters: Option<seq<ActiveFilter>>
    /** The operator last set; None until the store is first set. */
    var opSelected: Option<LabelOperation>

    /** The store as the program starts it: nothing selected, no operator. */
    constructor ()
      ensures selectedFilters == None && opSelected == None
      ensures !IsInitialized()
    {
      selectedFilters := None;
      opSelected := None;
    }

    /** Has the store been set since it was created or last reset? */
    function IsInitialized(): (r: bool)
      reads this
      ensures r <==> selectedFilters.Some?
    {
      selectedFilters != None
    }

    /** The store's content, with an empty list and the `or` operator standing in for values never set. */
    function GetSelected(): (r: ActiveFiltersInfo)
      reads this
      ensures IsInitialized() ==> r.filters == selectedFilters.value
      ensures !IsInitialized() ==> r.filters == []
      ensures opSelected.Some? ==> r.op == opSelected.value
      ensures opSelected.None? ==> r.op == Or
    {
      ActiveFiltersInfo(
        if selectedFilters.Some? then selectedFilters.value else [],
        if opSelected.Some? then opSelected.value else Or)
    }

    /** Returns the store to "never initialised"; the operator is kept. */
    method ResetFilters()
      modifies this
      ensures selectedFilters == None && opSelected == old(opSelected)
      ensures !IsInitialized()
      ensures GetSelected() == ActiveFiltersInfo([], old(GetSelected().op))
    {
      selectedFilters := None;
    }

    /** Replaces list and operator at once; reading them back gives exactly `info`. */
    method SetSelected(info: ActiveFiltersInfo)
      modifies this
      ensures selectedFilters == Some(info.filters) && opSelected == Some(info.op)
      ensures IsInitialized() && GetSelected() == info
    {
      selectedFilters := Some(info.filters);
      opSelected := Some(info.op);
    }

    /**
     * Reconciles the store with the URL. Uninitialised: the store is seeded
     * from the URL, which is not written. Initialised and matching the URL:
     * nothing changes. Otherwise the store's content is written to the URL
     * and the store takes what the write returns. In every case the result
     * is the store's content afterwards.
     */
    method Init(filterTypes: seq<FilterType>, loc: Location, codec: UrlCodec) returns (active: ActiveFiltersInfo)
      modifies this, loc
      ensures IsInitialized() && active == GetSelected()
      ensures !old(IsInitialized()) ==>
        active == codec.getFiltersFromUrl(filterTypes, old(loc.query)) && loc.query == old(loc.query)
      ensures old(IsInitialized()) && codec.filtersMatchUrl(filterTypes, old(GetSelected()), old(loc.query)) ==>
        active == old(GetSelected()) && unchanged(this) && unchanged(loc)
      ensures old(IsInitialized()) && !codec.filtersMatchUrl(filterTypes, old(GetSelected()), old(loc.query)) ==>
        var w := codec.setFiltersToUrl(filterTypes, old(GetSelected()), old(loc.query));
        active == w.info && loc.query == w.query
    {
      active := GetSelected();
      if !IsInitialized() {
        active := codec.getFiltersFromUrl(filterTypes, loc.query);
        SetSelected(active);
      } else if !codec.filtersMatchUrl(filterTypes, active, loc.query) {
        var w := codec.setFiltersToUrl(filterTypes, active, loc.query);
        loc.query := w.query;
        active := w.info;
        SetSelected(active);
      }
    }
  }
}

=== FILE: filter_types.dfy ===
/** Values exchanged between the filter toolbar, its two stores and the URL helpers. */
module FilterTypes {

  datatype Option<+T> = None | Some(value: T)

  /** `find`, and `filter(...)[0]`: the first element satisfying `p`, if any. */
  function First<T>(xs: seq<T>, p: T -> bool): (r: Option<T>)
    ensures r.None? <==> forall i :: 0 <= i < |xs| ==> !p(xs[i])
    ensures r.Some? ==> exists i :: 0 <= i < |xs| && xs[i] == r.value && p(r.value) &&
                                   (forall j :: 0 <= j < i ==> !p(xs[j]))
  {
    if xs == [] then None
    else if p(xs[0]) then Some(xs[0])
    else
      var r := First(xs[1..], p);
      assert forall i :: 1 <= i < |xs| ==> xs[i] == xs[1..][i - 1];
      r
  }

  /** The id of a selectable option may be a string or a number; `===` never equates the two kinds. */
  datatype ValueId = TextId(text: string) | NumberId(number: int)

  /** One selectable option of a filter category. */
  datatype FilterValue = FilterValue(id: ValueId, title: string)

  /** How a value is entered; every kind that is not structured is a plain text input of some HTML input type. */
  datatype FilterKind = TypeAhead | Select | Label | NsLabel | TextInput(inputType: string)

  /** Whether a new value of the category is appended, or overwrites the entries already there. */
  datatype FilterAction = Append | Update

  /** A filter category offered by the toolbar. */
  datatype FilterType = FilterType(
    category: string,
    placeholder: string,
    filterKind: FilterKind,
    action: FilterAction,
    filterValues: seq<FilterValue>)

  /** How label filters are combined. */
  datatype LabelOperation = And | Or

  /**
   * The operator a cleared filter list gets. The source imports it from its
   * filter type definitions, which are not part of this model; `or` is the
   * documented default.
   */
  const DefaultLabelOperation: LabelOperation := Or

  /** One committed (category, value) selection. */
  datatype ActiveFilter = ActiveFilter(category: string, value: string)

  /** The active filters in chip order, and the operator combining them. */
  datatype ActiveFiltersInfo = ActiveFiltersInfo(filters: seq<ActiveFilter>, op: LabelOperation)

  /** A named column toggle, its caption (`label` in the source) and its default state. */
  datatype ToggleType = ToggleType(name: string, labelText: string, isChecked: bool)
}

=== FILE: toggle_store.dfy ===
/**
 * The process-wide store of column toggles: each toggle name mapped to
 * whether it is checked, with a running count of checked toggles. On init
 * a boolean in the URL takes precedence over the toggle's default.
 */
module ToggleStore {
  import opened FilterTypes
  import opened Url

  /** The query parameter that holds a toggle's state. */
  function ToggleParam(name: string): string
  {
    name + "Toggle"
  }

  /** A toggle's state on init: the URL's boolean when the URL has one, the toggle's default otherwise. */
  function Resolved(t: ToggleType, q: Query, codec: UrlCodec): (r: bool)
    ensures codec.getBooleanParam(ToggleParam(t.name), q).Some? ==> r == codec.getBooleanParam(ToggleParam(t.name), q).value
    ensures codec.getBooleanParam(ToggleParam(t.name), q).None? ==> r == t.isChecked
  {
    var fromUrl := codec.getBooleanParam(ToggleParam(t.name), q);
    if fromUrl.None? then t.isChecked else fromUrl.value
  }

  /** The map init builds from the toggles in list order: a later toggle of the same name overrides an earlier one. */
  function ToggleMap(ts: seq<ToggleType>, q: Query, codec: UrlCodec): map<string, bool>
  {
    if ts == [] then map[]
    else ToggleMap(ts[..|ts| - 1], q, codec)[ts[|ts| - 1].name := Resolved(ts[|ts| - 1], q, codec)]
  }

  /** How many entries of the list init counts as checked. */
  function CountOn(ts: seq<ToggleType>, q: Query, codec: UrlCodec): nat
  {
    if ts == [] then 0
    else CountOn(ts[..|ts| - 1], q, codec) + if Resolved(ts[|ts| - 1], q, codec) then 1 else 0
  }

  /** The names a map sets to true. */
  function CheckedNames(m: map<string, bool>): set<string>
  {
    set k | k in m && m[k]
  }

  /** The number of names a map sets to true. */
  function CountTrue(m: map<string, bool>): nat
  {
    |CheckedNames(m)|
  }

  /** Toggle names are unique keys. */
  predicate DistinctNames(ts: seq<ToggleType>)
  {
    forall i, j :: 0 <= i < j < |ts| ==> ts[i].name != ts[j].name
  }

  /** Init maps exactly the names of the given toggles. */
  lemma {:induction false} ToggleMapKeys(ts: seq<ToggleType>, q: Query, codec: UrlCodec)
    ensures ToggleMap(ts, q, codec).Keys == set t | t in ts :: t.name
  {
    if ts != [] {
      var init := ts[..|ts| - 1];
      ToggleMapKeys(init, q, codec);
      assert ts == init + [ts[|ts| - 1]];
      assert forall t :: t in ts <==> t in init || t == ts[|ts| - 1];
    }
  }

  /** With unique names, init maps each toggle to its resolved state. */
  lemma {:induction false} ToggleMapValue(ts: seq<ToggleType>, q: Query, codec: UrlCodec, i: int)
    requires DistinctNames(ts)
    requires 0 <= i < |ts|
    ensures ts[i].name in ToggleMap(ts, q, codec)
    ensures ToggleMap(ts, q, codec)[ts[i].name] == Resolved(ts[i], q, codec)
  {
    if i < |ts| - 1 {
      var init := ts[..|ts| - 1];
      assert init[i] == ts[i];
      ToggleMapValue(init, q, codec, i);
    }
  }

  /** Setting one name changes the count of checked names by what that one entry changes. */
  lemma CountTrueUpdate(m: map<string, bool>, k: string, v: bool)
    ensures CountTrue(m[k := v]) == CountTrue(m) - (if k in m && m[k] then 1 else 0) + (if v then 1 else 0)
  {
    var before, after := CheckedNames(m), CheckedNames(m[k := v]);
    var rest := before - {k};
    assert after == if v then rest + {k} else rest;
    assert before == if k in m && m[k] then rest + {k} else rest;
  }

  /** With unique names, the count init returns is the number of names it maps to true. */
  lemma {:induction false} InitCountIsCheckedNames(ts: seq<ToggleType>, q: Query, codec: UrlCodec)
    requires DistinctNames(ts)
    ensures CountOn(ts, q, codec) == CountTrue(ToggleMap(ts, q, codec))
  {
    if ts != [] {
      var init, last := ts[..|ts| - 1], ts[|ts| - 1];
      InitCountIsCheckedNames(init, q, codec);
      ToggleMapKeys(init, q, codec);
      assert last.name !in ToggleMap(init, q, codec);
      CountTrueUpdate(ToggleMap(init, q, codec), last.name, Resolved(last, q, codec));
    }
  }

  /**
   * Flipping a toggle always changes the number of checked names; a count
   * that stays where it was no longer matches the map.
   */
  lemma FlipChangesCount(m: map<string, bool>, name: string, v: bool)
    requires (name in m && m[name]) != v
    ensures CountTrue(m[name := v]) == CountTrue(m) + (if v then 1 else -1)
    ensures CountTrue(m[name := v]) != CountTrue(m)
  {
    CountTrueUpdate(m, name, v);
  }

  class Toggles {
    /** Each toggle name and whether it is checked. */
    var checked: map<string, bool>
    /** The running count of checked toggles. */
    var numChecked: int

    constructor ()
      ensures checked == map[] && numChecked == 0
    {
      checked := map[];
      numChecked := 0;
    }

    /** Does the running count agree with the map? */
    predicate CountConsistent()
      reads this
    {
      numChecked == CountTrue(checked)
    }

    /**
     * Clears the store, then maps each toggle to its URL boolean or its
     * default, counting the checked ones; returns that count.
     */
    method Init(toggles: seq<ToggleType>, loc: Location, codec: UrlCodec) returns (n: int)
      modifies this
      ensures checked == ToggleMap(toggles, loc.query, codec)
      ensures n == numChecked == CountOn(toggles, loc.query, codec)
      ensures DistinctNames(toggles) ==> CountConsistent()
    {
      checked := map[];
      numChecked := 0;
      var q := loc.query;
      var i := 0;
      while i < |toggles|
        invariant 0 <= i <= |toggles|
        invariant checked == ToggleMap(toggles[..i], q, codec)
        invariant numChecked == CountOn(toggles[..i], q, codec)
      {
        var t := toggles[i];
        var urlIsChecked := codec.getBooleanParam(ToggleParam(t.name), q);
        var isChecked := if urlIsChecked.None? then t.isChecked else urlIsChecked.value;
        checked := checked[t.name := isChecked];
        if isChecked {
          numChecked := numChecked + 1;
        }
        assert toggles[..i + 1][..i] == toggles[..i];
        i := i + 1;
      }
      assert toggles[..|toggles|] == toggles;
      n := numChecked;
      if DistinctNames(toggles) {
        InitCountIsCheckedNames(toggles, q, codec);
      }
    }

    /**
     * Sets one toggle, as the code is written: the URL parameter and the map
     * entry change, but the count is assigned the value a postfix increment
     * or decrement yields, which is the count before the step, so it never
     * moves.
     */
    method SetToggle(name: string, value: bool, loc: Location, codec: UrlCodec) returns (n: int)
      modifies this, loc
      ensures loc.query == codec.setParam(ToggleParam(name), if value then "true" else "false", old(loc.query))
      ensures checked == old(checked)[name := value]
      ensures n == numChecked == old(numChecked)
      ensures old(CountConsistent()) && (name in old(checked) && old(checked)[name]) != value ==> !CountConsistent()
    {
      loc.query := codec.setParam(ToggleParam(name), if value then "true" else "false", loc.query);
      checked := checked[name := value];
      var yielded: int;
      if value {
        yielded := numChecked;
        numChecked := numChecked + 1;
      } else {
        yielded := numChecked;
        numChecked := numChecked - 1;
      }
      numChecked := yielded;
      n := numChecked;
      if (name in old(checked) && old(checked)[name]) != value {
        FlipChangesCount(old(checked), name, value);
      }
    }

    /** Sets one toggle and moves the count by what the entry changed, so the count keeps agreeing with the map. */
    method SetToggleCounted(name: string, value: bool, loc: Location, codec: UrlCodec) returns (n: int)
      requires CountConsistent()
      modifies this, loc
      ensures loc.query == codec.setParam(ToggleParam(name), if value then "true" else "false", old(loc.query))
      ensures checked == old(checked)[name := value]
      ensures n == numChecked && CountConsistent()
      ensures var was := name in old(checked) && old(checked)[name];
        n == old(numChecked) + (if value && !was then 1 else if !value && was then -1 else 0)
    {
      loc.query := codec.setParam(ToggleParam(name), if value then "true" else "false", loc.query);
      var was := name in checked && checked[name];
      CountTrueUpdate(checked, name, value);
      checked := checked[name := value];
      if value && !was {
        numChecked := numChecked + 1;
      } else if !value && was {
        numChecked := numChecked - 1;
      }
      n := numChecked;
    }

    /** A copy of the toggle map. */
    function GetToggles(): (r: map<string, bool>)
      reads this
      ensures r.Keys == checked.Keys && forall k :: k in r ==> r[k] == checked[k]
    {
      checked
    }
  }

  /**
   * The two-toggle scenario run through the store: "wasm" and "istio" both
   * unchecked with nothing in the URL, then "wasm" is checked. One name is
   * checked, but the count setToggle returns is still 0.
   */
  method WasmScenarioCountStaysZero(loc: Location, codec: UrlCodec) returns (n: int, t: Toggles)
    requires codec.getBooleanParam(ToggleParam("wasm"), loc.query).None?
    requires codec.getBooleanParam(ToggleParam("istio"), loc.query).None?
    modifies loc
    ensures n == 0 && t.numChecked == 0
    ensures CountTrue(t.checked) == 1 && !t.CountConsistent()
  {
    var wasm, istio := ToggleType("wasm", "WASM", false), ToggleType("istio", "Istio", false);
    t := new Toggles();
    var toggles := [wasm, istio];
    var initial := t.Init(toggles, loc, codec);
    assert !Resolved(wasm, loc.query, codec) && !Resolved(istio, loc.query, codec);
    assert toggles[..1] == [wasm] && [wasm][..0] == [];
    assert ToggleMap([wasm], loc.query, codec) == map["wasm" := false];
    assert CountOn([wasm], loc.query, codec) == 0;
    assert t.checked == map["wasm" := false, "istio" := false];
    assert initial == 0;
    n := t.SetToggle("wasm", true, loc, codec);
    assert t.checked == map["wasm" := true, "istio" := false];
    assert CheckedNames(t.checked) == {"wasm"};
  }
}

=== FILE: typeahead.dfy ===
/**
 * The typeahead input: narrowing the candidate list to the titles that
 * contain the typed text, ignoring case, and moving the keyboard focus
 * through the candidates with wrap-around.
 */
module Typeahead {
  import opened FilterTypes

  /** The keys the value inputs react to. */
  datatype Key = ArrowUp | ArrowDown | Enter | OtherKey(name: string)

  /** Lower-cases one character (letters A to Z). */
  function LowerChar(c: char): (r: char)
    ensures 'A' <= c <= 'Z' ==> 'a' <= r <= 'z' && r as int - c as int == 32
    ensures !('A' <= c <= 'Z') ==> r == c
  {
    if 'A' <= c <= 'Z' then (c as int + 32) as char else c
  }

  /** Lower-cases a string, character by character. */
  function Lower(s: string): (r: string)
    ensures |r| == |s|
    ensures forall i :: 0 <= i < |s| ==> r[i] == LowerChar(s[i])
  {
    if s == [] then [] else [LowerChar(s[0])] + Lower(s[1..])
  }

  /** Lower-casing is idempotent. */
  lemma LowerIdempotent(s: string)
    ensures Lower(Lower(s)) == Lower(s)
  {
  }

  /** Does `text` start with `part`? */
  predicate StartsWith(text: string, part: string)
  {
    |part| <= |text| && text[..|part|] == part
  }

  /** Does `part` occur in `text` at some position? */
  predicate Includes(text: string, part: string)
    decreases |text|
  {
    StartsWith(text, part) || (text != [] && Includes(text[1..], part))
  }

  /** The empty string occurs in every text. */
  lemma IncludesEmpty(text: string)
    ensures Includes(text, [])
  {
  }

  /** Whatever contains a string contains each of its prefixes. */
  lemma {:induction false} IncludesPrefix(text: string, a: string, b: string)
    requires Includes(text, a + b)
    ensures Includes(text, a)
  {
    if StartsWith(text, a + b) {
      assert text[..|a|] == (a + b)[..|a|] == a;
    } else {
      IncludesPrefix(text[1..], a, b);
    }
  }

  /** The typeahead match: the lower-cased title contains the lower-cased input. */
  predicate TitleMatches(v: FilterValue, input: string)
  {
    Includes(Lower(v.title), Lower(input))
  }

  /** The candidates shown for the typed input: the matching values, in their order. */
  function Narrow(values: seq<FilterValue>, input: string): (r: seq<FilterValue>)
    ensures |r| <= |values|
    ensures forall v :: v in r <==> v in values && TitleMatches(v, input)
  {
    if values == [] then []
    else if TitleMatches(values[0], input) then [values[0]] + Narrow(values[1..], input)
    else Narrow(values[1..], input)
  }

  /** Narrowing distributes over concatenation, so the candidates keep their order. */
  lemma {:induction false} NarrowAppend(a: seq<FilterValue>, b: seq<FilterValue>, input: string)
    ensures Narrow(a + b, input) == Narrow(a, input) + Narrow(b, input)
  {
    if a == [] {
      assert a + b == b;
    } else {
      assert (a + b)[0] == a[0];
      assert (a + b)[1..] == a[1..] + b;
      NarrowAppend(a[1..], b, input);
    }
  }

  /** An empty input shows every value. */
  lemma {:induction false} NarrowEmptyInput(values: seq<FilterValue>)
    ensures Narrow(values, []) == values
  {
    if values != [] {
      IncludesEmpty(Lower(values[0].title));
      NarrowEmptyInput(values[1..]);
      assert [values[0]] + values[1..] == values;
    }
  }

  /** Letter case in the input makes no difference. */
  lemma {:induction false} NarrowIgnoresCase(values: seq<FilterValue>, input: string)
    ensures Narrow(values, Lower(input)) == Narrow(values, input)
  {
    LowerIdempotent(input);
    if values != [] {
      NarrowIgnoresCase(values[1..], input);
    }
  }

  /** Lower-casing distributes over concatenation. */
  lemma LowerAppend(a: string, b: string)
    ensures Lower(a + b) == Lower(a) + Lower(b)
  {
  }

  /** A title matching a longer input matches every prefix of it. */
  lemma MatchesPrefix(v: FilterValue, a: string, b: string)
    requires TitleMatches(v, a + b)
    ensures TitleMatches(v, a)
  {
    LowerAppend(a, b);
    IncludesPrefix(Lower(v.title), Lower(a), Lower(b));
  }

  /** Typing more only removes candidates: narrowing by a longer input also narrows the shorter input's list. */
  lemma {:induction false} NarrowExtendedInput(values: seq<FilterValue>, a: string, b: string)
    ensures Narrow(values, a + b) == Narrow(Narrow(values, a), a + b)
  {
    if values != [] {
      var v, rest := values[0], values[1..];
      NarrowExtendedInput(rest, a, b);
      if TitleMatches(v, a) {
        var na := Narrow(values, a);
        assert na == [v] + Narrow(rest, a);
        assert na[0] == v && na[1..] == Narrow(rest, a);
      } else {
        if TitleMatches(v, a + b) {
          MatchesPrefix(v, a, b);
        }
        assert Narrow(values, a) == Narrow(rest, a);
      }
    }
  }

  /**
   * The index focused after ArrowUp or ArrowDown in an open list of n
   * candidates: from no focus or the boundary it wraps to the other end,
   * otherwise it moves by one.
   */
  function NextFocus(key: Key, focused: Option<int>, n: nat): (r: int)
    requires key == ArrowUp || key == ArrowDown
    ensures n > 0 && (focused.None? || 0 <= focused.value < n) ==> 0 <= r < n
    ensures n > 0 && focused.Some? && 0 <= focused.value < n ==>
      r == if key == ArrowDown then (focused.value + 1) % n else (focused.value - 1) % n
    ensures focused.None? ==> r == if key == ArrowDown then 0 else n - 1
  {
    if key == ArrowUp then
      if focused.None? || focused.value == 0 then n - 1 else focused.value - 1
    else
      if focused.None? || focused.value == n - 1 then 0 else focused.value + 1
  }

  /** ArrowUp undoes ArrowDown and ArrowDown undoes ArrowUp on a focused candidate. */
  lemma FocusUpDownInverse(i: int, n: nat)
    requires 0 <= i < n
    ensures NextFocus(ArrowUp, Some(NextFocus(ArrowDown, Some(i), n)), n) == i
    ensures NextFocus(ArrowDown, Some(NextFocus(ArrowUp, Some(i), n)), n) == i
  {
  }

  /** The index focused after `times` more presses of the same arrow key, starting from index i. */
  function FocusAfter(key: Key, i: int, n: nat, times: nat): int
    requires key == ArrowUp || key == ArrowDown
    decreases times
  {
    if times == 0 then i else FocusAfter(key, NextFocus(key, Some(i), n), n, times - 1)
  }

  /**
   * A focus left at or beyond the end of a shorter list is never wrapped:
   * the wrap test only catches the last index, so each ArrowDown moves one
   * further past the end.
   */
  lemma {:induction false} StaleFocusRunsAway(k: int, n: nat, times: nat)
    requires 0 < n <= k
    ensures FocusAfter(ArrowDown, k, n, times) == k + times
    ensures times > 0 ==> FocusAfter(ArrowDown, k, n, times) >= n
    decreases times
  {
    if times > 0 {
      assert NextFocus(ArrowDown, Some(k), n) == k + 1;
      StaleFocusRunsAway(k + 1, n, times - 1);
    }
  }

  /** Repeated ArrowDown walks the candidates cyclically: k presses from index i focus (i + k) mod n. */
  lemma {:induction false} FocusAfterDownCycles(i: int, n: nat, times: nat)
    requires 0 <= i < n
    ensures FocusAfter(ArrowDown, i, n, times) == (i + times) % n
    decreases times
  {
    if times > 0 {
      var j := if i == n - 1 then 0 else i + 1;
      assert FocusAfter(ArrowDown, i, n, times) == FocusAfter(ArrowDown, j, n, times - 1);
      FocusAfterDownCycles(j, n, times - 1);
      if i == n - 1 {
        ModShift(times - 1, n);
        assert (times - 1) + n == i + times;
      } else {
        assert j + (times - 1) == i + times;
      }
    }
  }

  /** Repeated ArrowUp walks the candidates cyclically: k presses from index i focus (i - k) mod n. */
  lemma {:induction false} FocusAfterUpCycles(i: int, n: nat, times: nat)
    requires 0 <= i < n
    ensures FocusAfter(ArrowUp, i, n, times) == (i - times) % n
    decreases times
  {
    if times > 0 {
      var j := if i == 0 then n - 1 else i - 1;
      assert FocusAfter(ArrowUp, i, n, times) == FocusAfter(ArrowUp, j, n, times - 1);
      FocusAfterUpCycles(j, n, times - 1);
      if i == 0 {
        ModShift(-(times as int), n);
        assert -(times as int) + n == j - (times - 1);
      } else {
        assert j - (times - 1) == i - times;
      }
    }
  }

  /** Adding n does not change a remainder modulo n. */
  lemma ModShift(x: int, n: int)
    requires n > 0
    ensures (x + n) % n == x % n
  {
    var q, r := x / n, x % n;
    assert x == q * n + r && 0 <= r < n;
    assert x + n == (q + 1) * n + r;
    ModUnique(x + n, n, q + 1, r);
  }

  /** The remainder is determined by a == q * n + r with 0 <= r < n. */
  lemma ModUnique(a: int, n: int, q: int, r: int)
    requires n > 0 && 0 <= r < n && a == q * n + r
    ensures a % n == r
  {
    var q', r' := a / n, a % n;
    assert a == q' * n + r' && 0 <= r' < n;
    assert (q - q') * n == r' - r;
    if q > q' {
      MulAtLeast(q - q', n);
    } else if q < q' {
      MulAtLeast(q' - q, n);
    }
  }

  /** A positive multiple of n is at least n. */
  lemma MulAtLeast(k: int, n: int)
    requires k >= 1 && n > 0
    ensures k * n >= n
  {
  }

  /** From no focus, k presses of ArrowDown focus index k - 1 and k presses of ArrowUp index -k, modulo n. */
  lemma PressesFromNoFocus(key: Key, n: nat, times: nat)
    requires key == ArrowUp || key == ArrowDown
    requires n > 0 && times > 0
    ensures FocusAfter(key, NextFocus(key, None, n), n, times - 1) == if key == ArrowDown then (times - 1) % n else (n - times) % n
  {
    if key == ArrowDown {
      FocusAfterDownCycles(0, n, times - 1);
    } else {
      FocusAfterUpCycles(n - 1, n, times - 1);
    }
  }

  /** The candidate at the focused index, if the index lies inside the list. */
  function FocusedItem(values: seq<FilterValue>, focused: Option<int>): (r: Option<FilterValue>)
    ensures r.Some? <==> focused.Some? && 0 <= focused.value < |values|
    ensures r.Some? ==> r.value == values[focused.value]
  {
    if focused.Some? && 0 <= focused.value < |values| then Some(values[focused.value]) else None
  }

  /** The first candidate with the given id. */
  function FindById(values: seq<FilterValue>, id: ValueId): Option<FilterValue>
  {
    First(values, (v: FilterValue) => v.id == id)
  }
}

=== FILE: url.dfy ===
/**
 * The address bar and the helpers that read and write it. The helpers' own
 * code is not part of this model: each is a function value handed to the
 * stores, and nothing is assumed about it (in particular no round trip).
 */
module Url {
  import opened FilterTypes

  /** The query parameters of the current location. */
  type Query = map<string, string>

  /** What writing filters to the URL yields: the new query and the info actually written. */
  datatype Written = Written(query: Query, info: ActiveFiltersInfo)

  datatype UrlCodec = UrlCodec(
    /** Decodes the filters the query holds for the given filter types. */
    getFiltersFromUrl: (seq<FilterType>, Query) -> ActiveFiltersInfo,
    /** Encodes an info into the query; returns the new query and the cleaned info. */
    setFiltersToUrl: (seq<FilterType>, ActiveFiltersInfo, Query) -> Written,
    /** Does the query already encode this info for these filter types? */
    filtersMatchUrl: (seq<FilterType>, ActiveFiltersInfo, Query) -> bool,
    /** Reads a boolean query parameter; None when it is absent or not a boolean. */
    getBooleanParam: (string, Query) -> Option<bool>,
    /** Sets one query parameter to a string. */
    setParam: (string, string, Query) -> Query)

  /** The browser location shared by every view. */
  class Location {
    var query: Query

    constructor (q: Query)
      ensures query == q
    {
      query := q;
    }
  }
}
